=== FILE: README.md ===
# FundChart intraday curve — a Dafny model

This project models the pure core of the `FundChart` component of
real-time-fund: the transform that turns one trading day's `(time, pct)`
samples of a fund's estimated change into chart geometry.

- **Session clock** (`SessionClock`, `parseTimeToMinutes`): a time of day is
  placed on a compressed 0..240 axis. The morning session 09:30-11:30 maps to
  0..120, the afternoon session 13:00-15:00 to 120..240, the lunch break to
  the single point 120, and times outside the sessions clamp to 0 or 240. A
  missing or unparseable time gives no position.
- **Value range** (`ValueRange`): the extremes of the finite values together
  with zero, padded on both sides by 8% of their distance, where a distance
  below 0.2 counts as 0.2. The clamp only sizes the padding; the extremes
  themselves are never moved.
- **Path data** (`PathData`): the line path (one moveto, then linetos) and
  the closed area path down to the plot floor, as SVG path commands (section
  8.3 of SVG 1.1) over exact reals. A parser for both shapes is their
  inverse.
- **Geometry builder** (`ChartGeometry`, `buildPath`): drops samples whose
  time does not parse or whose value is not finite, maps the rest to plot
  coordinates inside the margins of the 1000 x 120 canvas, and returns the
  paths, the zero baseline and the ranges.
- **Presentation** (`Presentation`, the value logic of `FundChart`): the
  last 300 stored samples, the latest value and its fallback, the up flag,
  the sign of the percentage label, the header date and the "no data" state.

JavaScript numbers are modelled as exact `real`s, and "not a finite number" as
`None` in an `Option`. The split-and-convert step of `parseTimeToMinutes` is
an input: `TimeOfDay` is `NoTime` for a missing or empty time string, and
otherwise carries each converted part, `None` where the conversion is not
finite.

The padding is always at least 0.016, so the padded range strictly contains
the raw range (`minPadded < rawMin` and `rawMax < maxPadded`), not merely
contains it.

## Model

| member | source | states |
|---|---|---|
| SessionClock.SessionMinute | app/components/FundChart.jsx:14-23 | every session minute lies in [0, 240] |
| SessionClock.MinutesOf | app/components/FundChart.jsx:8-23 | no position exactly when the time is missing or empty or either part is not a finite number; otherwise a position in [0, 240] |
| SessionClock.SessionMinuteCountsTradedMinutes | app/components/FundChart.jsx:14-23 | the position of a time equals the number of trading minutes (09:30-11:30, 13:00-15:00) elapsed by it, an independent recursive definition |
| SessionClock.SessionMinuteMonotone | app/components/FundChart.jsx:19-23 | later times never map to earlier positions, and the axis never advances faster than the wall clock |
| SessionClock.LunchBreakIsFlat | app/components/FundChart.jsx:20-22 | every time from 11:30 through 13:00 maps to 120 |
| SessionClock.OutsideSessionsClamps | app/components/FundChart.jsx:19-23 | times at or before 09:30 map to 0, times at or after 15:00 to 240 |
| SessionClock.WallClockOf | app/components/FundChart.jsx:19-22 | every position in [0, 240] is reached by a time between 09:30 and 15:00 |
| SessionClock.WallClockOfInvertsSessionMinute | app/components/FundChart.jsx:19-22 | on trading times the clock is one-to-one: the wall-clock time is recovered from its position |
| SessionClock.SessionMinuteLandmarks | app/components/FundChart.jsx:8-23 | 09:30, 10:00, 11:30, 12:15, 13:00, 15:00, 08:00, 16:00 map to 0, 30, 120, 120, 120, 240, 0, 240; missing or non-numeric times map to none |
| ValueRange.MinWithZero | app/components/FundChart.jsx:50 | the raw minimum is at most 0 and every value, and is 0 or one of the values |
| ValueRange.MaxWithZero | app/components/FundChart.jsx:51 | the raw maximum is at least 0 and every value, and is 0 or one of the values |
| ValueRange.ScaleOf | app/components/FundChart.jsx:50-58 | the ranges nest as minPadded < rawMin <= 0 <= rawMax < maxPadded; the padding is the same on both sides and equals 8% of max(rawMax - rawMin, 0.2), so it is at least 0.016 and the later division is by a positive span |
| ValueRange.PaddedSpan | app/components/FundChart.jsx:54-58 | a raw range of at least 0.2 fills exactly 1/1.16 of the padded span; a narrower one is padded by 0.016 on each side |
| ValueRange.ValuesInsidePaddedRange | app/components/FundChart.jsx:50-58 | every finite value lies strictly inside the padded range |
| ValueRange.FlatZeroSeriesIsClamped | app/components/FundChart.jsx:54-58 | a series flat at zero keeps raw extremes 0 and 0; the clamp gives padding 0.016, so the padded range is [-0.016, 0.016] |
| ValueRange.FlatPositiveSeriesKeepsZero | app/components/FundChart.jsx:50-58 | a series flat at +5 keeps zero in range: raw [0, 5], padded [-0.4, 5.4] |
| PathData.LinePath | app/components/FundChart.jsx:75-77 | one path command per point |
| PathData.AreaPath | app/components/FundChart.jsx:79-80 | three commands more than there are points |
| PathData.LinePathRoundTrip | app/components/FundChart.jsx:75-77 | the points are read back from the line path of any non-empty point list |
| PathData.LinePathFromParse | app/components/FundChart.jsx:75-77 | any path read as a line path is one moveto followed only by linetos, and is the line path of the points read |
| PathData.AreaPathRoundTrip | app/components/FundChart.jsx:79-80 | the points and the floor are read back from the area path |
| PathData.AreaPathFromParse | app/components/FundChart.jsx:79-80 | any path read as an area path is the line path plus a lineto below the last point, a lineto below the first point at the same height, and a closepath |
| ChartGeometry.Usable | app/components/FundChart.jsx:65-66 | a sample is drawn only when its time gives a session minute, and that minute lies in [0, 240]; `CoordOf` states that exactly these samples get a coordinate |
| ChartGeometry.PlotWidth | app/components/FundChart.jsx:60 | the plot and the left and right margins together fill the canvas width |
| ChartGeometry.PlotHeight | app/components/FundChart.jsx:61 | the plot and the top and bottom margins together fill the canvas height |
| ChartGeometry.ToX | app/components/FundChart.jsx:67 | session minute 0 is drawn at the left margin and minute 240 at the right edge of the plot; `XInsidePlot`, `XMonotone` and `XStrictlyMonotone` state the rest |
| ChartGeometry.ToY | app/components/FundChart.jsx:68-82 | the height of a value, for the samples and the baseline; its properties are stated by `YAtPaddedEnds`, `YDifference`, `YInsideBand`, `HigherValueIsHigherOnScreen` and `SideOfBaseline` |
| ChartGeometry.Keep | app/components/FundChart.jsx:63-71 | the kept samples are exactly the input samples whose time parses and whose value is finite |
| ChartGeometry.FiniteValues | app/components/FundChart.jsx:47 | the collected values are exactly the finite values of the samples (every one is collected, and nothing else), and none are collected exactly when no sample has a finite value |
| ChartGeometry.CoordOf | app/components/FundChart.jsx:64-70 | a sample gets a coordinate exactly when its time parses and its value is finite |
| ChartGeometry.Coords | app/components/FundChart.jsx:63-71 | one coordinate per kept sample, the k-th being the coordinate of the k-th kept sample |
| ChartGeometry.Assemble | app/components/FundChart.jsx:75-93 | for non-empty coordinates: the line path reads back as the coordinates, the area path as the coordinates and the floor `top + plotHeight`, and the baseline is drawn at the height of the value 0 |
| ChartGeometry.BuildPath | app/components/FundChart.jsx:44-95 | the empty geometry exactly when no sample is drawable (empty list, no finite value, or nothing survives the filter); otherwise the padded range of the finite values, a baseline at the height of the value 0, and line and area paths that read back as the coordinates and the plot floor |
| ChartGeometry.NoFiniteValueNoUsable | app/components/FundChart.jsx:47-48 | without a finite value no sample is drawn |
| ChartGeometry.KeepConcat | app/components/FundChart.jsx:63-71 | filtering distributes over concatenation: order is kept and a skipped sample does not stop the ones after it |
| ChartGeometry.CoordsConcat | app/components/FundChart.jsx:63-71 | the coordinates of a concatenation are those of its parts, in order |
| ChartGeometry.CoordsSingle | app/components/FundChart.jsx:64-71 | a single sample contributes its coordinate if drawable and nothing otherwise |
| ChartGeometry.BuildPathCoords | app/components/FundChart.jsx:47-71 | the coordinates returned are those of the samples under the padded range of the finite values |
| ChartGeometry.BuildPathCoordsInOrder | app/components/FundChart.jsx:63-71 | the returned coordinates are, one for one and in input order, those of the drawable samples |
| ChartGeometry.LastKeptIsLast | app/components/FundChart.jsx:63-71 | a drawable last sample is the last sample kept |
| ChartGeometry.CoordsEndAtLastSample | app/components/FundChart.jsx:63-71 | a drawable last sample gives the last coordinate |
| ChartGeometry.LineEndsAtLastSample | app/components/FundChart.jsx:63-77 | when the last sample is drawable, the line ends at the height of its value |
| ChartGeometry.YInsideBand | app/components/FundChart.jsx:68 | a value strictly inside the padded range is drawn strictly between the top margin and the plot floor |
| ChartGeometry.HigherValueIsHigherOnScreen | app/components/FundChart.jsx:68 | y strictly decreases as the value increases |
| ChartGeometry.XInsidePlot | app/components/FundChart.jsx:67 | every session minute is drawn between the left margin and the right edge of the plot |
| ChartGeometry.YAtPaddedEnds | app/components/FundChart.jsx:68 | the padded maximum is drawn on the top margin and the padded minimum on the floor `top + plotHeight` that the area closes on |
| ChartGeometry.YDifference | app/components/FundChart.jsx:68 | the vertical distance between two values is their difference over the padded span, times the plot height, upward for the larger value |
| ChartGeometry.XMonotone | app/components/FundChart.jsx:67 | later session minutes are drawn no further left |
| ChartGeometry.XStrictlyMonotone | app/components/FundChart.jsx:67 | on a plot of positive width, a later session minute is drawn strictly further right |
| ChartGeometry.XDifference | app/components/FundChart.jsx:67 | the horizontal distance between two session minutes is the elapsed fraction of the 240-minute session times the plot width |
| ChartGeometry.PointOfColumn | app/components/FundChart.jsx:65-67 | a drawn sample is drawn at the x of its session minute |
| ChartGeometry.BuildPathColumns | app/components/FundChart.jsx:63-71 | for every kept sample, the matching coordinate of `buildPath` is at the x of that sample's session minute |
| ChartGeometry.UsableValueInsideScale | app/components/FundChart.jsx:47-58 | every drawn value lies strictly inside the padded range |
| ChartGeometry.CoordsInsidePlot | app/components/FundChart.jsx:60-82 | on a canvas with room for the plot every x is in [left, width - right], every y and the baseline strictly between the top margin and the floor |
| ChartGeometry.FixedCanvasBounds | app/components/FundChart.jsx:60-82 | on the 1000 x 120 canvas every x is in [44, 990] and every y and the baseline in (10, 102) |
| ChartGeometry.SideOfBaseline | app/components/FundChart.jsx:68-82 | a drawn sample is above the baseline exactly when its value is positive, on it exactly when it is zero, and below it exactly when it is negative |
| ChartGeometry.KeptInOrderLeftToRight | app/components/FundChart.jsx:63-71 | of two kept samples in time order, the earlier one's column is not right of the later one's |
| ChartGeometry.KeepTimeOrdered | app/components/FundChart.jsx:63-71 | filtering keeps samples that were in time order in time order |
| ChartGeometry.TimeOrderGivesNonDecreasingX | app/components/FundChart.jsx:63-71 | for samples in time order the line never steps left |
| ChartGeometry.FixedCanvasColumns | app/components/FundChart.jsx:67 | 09:30, 10:00, 11:30 and 15:00 are drawn at x = 44, 162.25, 517 and 990 |
| ChartGeometry.FourSampleDay | app/components/FundChart.jsx:44-95 | samples at 09:30, 10:00, 11:30, 15:00 with values 0, 1.2, -0.5, 2.0 give four coordinates at x = 44, 162.25, 517, 990, the -0.5 sample below the 2.0 sample, a 4-command line and a 7-command area |
| Presentation.Recent | app/components/FundChart.jsx:37 | the result is the suffix of the input of length min(length, 300) |
| Presentation.LoadTrend | app/components/FundChart.jsx:26-42 | a failed read gives the empty series; otherwise the stored date and at most the 300 most recent samples |
| Presentation.LatestValue | app/components/FundChart.jsx:99-100 | the last sample's value when it is finite, otherwise the supplied estimate (none when that is not finite either) |
| Presentation.IsUp | app/components/FundChart.jsx:102 | a present value counts as up exactly when it is at least 0; a missing value counts as up |
| Presentation.SignPrefix | app/components/FundChart.jsx:108 | the label's explicit prefix is `+` exactly when the value is at least 0, and empty exactly when it is negative; `LabelHasOneSign` states that the label then carries exactly one sign |
| Presentation.FormattedSign | app/components/FundChart.jsx:108 | the sign `toFixed(2)` writes: `-` exactly when the value is negative, none exactly when it is at least 0 (so -0 carries no sign) |
| Presentation.LabelHasOneSign | app/components/FundChart.jsx:108 | every percentage label carries exactly one sign character, `+` exactly when the value counts as up (value >= 0) |
| Presentation.FirstField | app/components/FundChart.jsx:101 | the result is the longest prefix without a space, ended by a space or the end of the string |
| Presentation.DisplayDate | app/components/FundChart.jsx:101 | the series' date when present, else the date part of the supplied timestamp, else empty |
| Presentation.FundChart | app/components/FundChart.jsx:97-127 | the "no data" state exactly when the stored series has no samples, and then no geometry; the value shown is the last stored sample's value when finite, else the supplied estimate; up exactly when that value is at least 0, and up when there is none; the header date and the geometry are those of the stored series |
| Presentation.NothingDrawableIsNotNoData | app/components/FundChart.jsx:106-127 | stored samples none of which can be drawn still show the plot, with empty paths and no baseline, not the "no data" placeholder |
| Presentation.RecentKeepsLatest | app/components/FundChart.jsx:99-100 | keeping only the 300 most recent samples never changes the value shown |
| Presentation.RecentIdempotent | app/components/FundChart.jsx:37 | trimming twice is trimming once |
| Presentation.LatestValueIsLineEnd | app/components/FundChart.jsx:99-100 | when the last sample is drawable, the value shown is its value and the line ends at its height |

## Left out

- Storage access in `getTrendData` (`window`, `localStorage`, `JSON.parse`, the try/catch) is I/O and host-library behaviour; `LoadTrend` takes the read result as an `Option`, `None` for every failure.
- The rendered component tree (SVG elements, gradient, colours, font sizes, static axis labels, the end-of-line marker circle, the axis ticks from `showAxis`/`valueToY`) is presentation with no behaviour to verify.
- `toFixed(2)` rounding and the text form of numbers: paths are sequences of commands over reals, and of the percentage label only the sign is modelled.
- IEEE-754 doubles: values are exact reals, so rounding in the division and the padding is not modelled; non-finite values (and non-numbers) are `None`.
- `Number()` conversion of the time parts (empty string to 0, whitespace, exponents) is not modelled; hours and minutes are integers, so fractional parts such as `9.5:00` are not covered.
- A time that is not a string (which would make `split` throw) is not modelled; stored times are strings.
- A `null` entry in the stored points (which would make `p.pct` throw at line 47 while rendering) is not modelled: every stored entry is a `Sample`. An entry without a usable `time` or `pct` is a `Sample` with `NoTime` or `None`.
- PathData.LinePath: its own contract states only the length; the shape (one moveto, then linetos through the points in order) is stated by `LinePathRoundTrip` and `LinePathFromParse`.
- ChartGeometry.ToY: carries no contract of its own; what it promises (the padded ends on the plot's edges, distances proportional to value differences, inside the band, strictly decreasing in the value, the side of the baseline) is stated by `YAtPaddedEnds`, `YDifference`, `YInsideBand`, `HigherValueIsHigherOnScreen` and `SideOfBaseline`.
- PathData.AreaPath: its own contract states only the length; the shape is stated by `AreaPathRoundTrip` and `AreaPathFromParse`.
- MinutesOf: does not state the exact position for each input on its own contract; the positions are stated by `SessionMinuteCountsTradedMinutes` and the lemmas about `SessionMinute`.

=== FILE: chart_geometry.dfy ===
/** The geometry builder of FundChart (`buildPath`): samples become plot
    coordinates, a line path, an area path and the zero baseline. */
module ChartGeometry {
  import opened Wrappers
  import opened SessionClock
  import opened ValueRange
  import opened PathData

  /** One stored sample. `pct` is `None` when the stored value is not a finite
      number. */
  datatype Sample = Sample(time: TimeOfDay, pct: Option<real>)

  datatype Padding = Padding(top: real, right: real, bottom: real, left: real)

  /** The fixed logical canvas and its plot margins. */
  const Width: real := 1000.0
  const Height: real := 120.0
  const Margins: Padding := Padding(10.0, 10.0, 18.0, 44.0)

  /** The result of `buildPath`. The empty geometry has empty paths, no
      baseline, no coordinates and no axis values. */
  datatype Geometry = Geometry(
    linePath: seq<Command>,
    areaPath: seq<Command>,
    zeroY: Option<real>,
    coords: seq<Point>,
    scale: Option<Scale>,
    plotHeight: Option<real>)

  const EmptyGeometry: Geometry := Geometry([], [], None, [], None, None)

  /** A sample is drawn when its time parses and its value is finite. */
  predicate Usable(p: Sample)
    ensures Usable(p) ==> MinutesOf(p.time).Some? && 0 <= MinutesOf(p.time).value <= SessionLength
  {
    MinutesOf(p.time).Some? && p.pct.Some?
  }

  /** The samples that are drawn, in input order. */
  function Keep(points: seq<Sample>): (r: seq<Sample>)
    ensures |r| <= |points|
    ensures forall k :: 0 <= k < |r| ==> Usable(r[k])
    ensures forall p :: p in r <==> p in points && Usable(p)
  {
    if points == [] then []
    else if Usable(points[0]) then [points[0]] + Keep(points[1..])
    else Keep(points[1..])
  }

  /** The finite values among the samples, in input order
      (`points.map(p => p.pct).filter(Number.isFinite)`). */
  function FiniteValues(points: seq<Sample>): (vs: seq<real>)
    ensures forall i :: 0 <= i < |points| && points[i].pct.Some? ==> points[i].pct.value in vs
    ensures forall v :: v in vs ==> exists i :: 0 <= i < |points| && points[i].pct == Some(v)
    ensures vs == [] <==> forall i :: 0 <= i < |points| ==> points[i].pct.None?
  {
    if points == [] then []
    else
      var rest := FiniteValues(points[1..]);
      assert forall i :: 1 <= i < |points| ==> points[i] == points[1..][i - 1];
      assert forall v :: v in rest ==> exists i :: 1 <= i < |points| && points[i].pct == Some(v);
      match points[0].pct
      case Some(v) => [v] + rest
      case None => rest
  }

  /** The plot and the margins beside it fill the canvas width. */
  function PlotWidth(width: real): (w: real)
    ensures Margins.left + w + Margins.right == width
  {
    width - Margins.left - Margins.right
  }

  /** The plot and the margins above and below it fill the canvas height. */
  function PlotHeight(height: real): (h: real)
    ensures Margins.top + h + Margins.bottom == height
  {
    height - Margins.top - Margins.bottom
  }

  /** Horizontal position of a session minute: the session open at the left
      margin, the close at the right edge of the plot. */
  function ToX(minutes: int, plotWidth: real): (x: real)
    ensures minutes == 0 ==> x == Margins.left
    ensures minutes == SessionLength ==> x == Margins.left + plotWidth
  {
    Margins.left + (minutes as real / SessionLength as real) * plotWidth
  }

  /** Vertical position of a value: the top of the padded range at the top
      margin, its bottom `plotHeight` below. */
  function ToY(s: Scale, v: real, plotHeight: real): real
    requires s.minPadded < s.maxPadded
  {
    Margins.top + ((s.maxPadded - v) / (s.maxPadded - s.minPadded)) * plotHeight
  }

  /** The coordinate of one sample, or `None` when it is skipped. */
  function CoordOf(p: Sample, s: Scale, plotWidth: real, plotHeight: real): (r: Option<Point>)
    requires s.minPadded < s.maxPadded
    ensures r.Some? <==> Usable(p)
  {
    var minutes := MinutesOf(p.time);
    if minutes.None? || p.pct.None? then None
    else Some(Point(ToX(minutes.value, plotWidth), ToY(s, p.pct.value, plotHeight)))
  }

  /** The coordinate of a sample that is drawn. */
  function PointOf(p: Sample, s: Scale, plotWidth: real, plotHeight: real): Point
    requires s.minPadded < s.maxPadded && Usable(p)
  {
    CoordOf(p, s, plotWidth, plotHeight).value
  }

  /** The coordinates of the drawn samples: each sample is mapped and the
      skipped ones are dropped, without stopping at them. */
  function Coords(points: seq<Sample>, s: Scale, plotWidth: real, plotHeight: real): (cs: seq<Point>)
    requires s.minPadded < s.maxPadded
    ensures |cs| == |Keep(points)|
    ensures forall k :: 0 <= k < |cs| ==> cs[k] == PointOf(Keep(points)[k], s, plotWidth, plotHeight)
  {
    if points == [] then []
    else
      var rest := Coords(points[1..], s, plotWidth, plotHeight);
      match CoordOf(points[0], s, plotWidth, plotHeight)
      case Some(c) =>
        assert Keep(points) == [points[0]] + Keep(points[1..]);
        [c] + rest
      case None =>
        assert Keep(points) == Keep(points[1..]);
        rest
  }

  /** The geometry of a non-empty list of coordinates: the line, the area
      down to the plot floor, and the zero baseline. */
  function Assemble(coords: seq<Point>, s: Scale, plotHeight: real): (g: Geometry)
    requires coords != [] && s.minPadded < s.maxPadded
    ensures g.coords == coords && g.scale == Some(s) && g.plotHeight == Some(plotHeight)
    ensures g.zeroY == Some(ToY(s, 0.0, plotHeight))
    ensures ParseLine(g.linePath) == Some(coords)
    ensures ParseArea(g.areaPath) == Some((coords, Margins.top + plotHeight))
  {
    var bottom := Margins.top + plotHeight;
    LinePathRoundTrip(coords);
    AreaPathRoundTrip(coords, bottom);
    Geometry(LinePath(coords), AreaPath(coords, bottom), Some(ToY(s, 0.0, plotHeight)),
             coords, Some(s), Some(plotHeight))
  }

  /** `buildPath(points, width, height)`. */
  function BuildPath(points: seq<Sample>, width: real, height: real): (g: Geometry)
    ensures g == EmptyGeometry <==> Keep(points) == []
    ensures |g.coords| == |Keep(points)|
    ensures g != EmptyGeometry ==>
      && g.scale == Some(ScaleOf(FiniteValues(points)))
      && g.plotHeight == Some(PlotHeight(height))
      && g.scale.value.minPadded < g.scale.value.maxPadded
      && g.zeroY == Some(ToY(g.scale.value, 0.0, PlotHeight(height)))
      && ParseLine(g.linePath) == Some(g.coords)
      && ParseArea(g.areaPath) == Some((g.coords, height - Margins.bottom))
  {
    if |points| == 0 then EmptyGeometry
    else
      var values := FiniteValues(points);
      if |values| == 0 then
        NoFiniteValueNoUsable(points);
        EmptyGeometry
      else
        var s := ScaleOf(values);
        var coords := Coords(points, s, PlotWidth(width), PlotHeight(height));
        if |coords| == 0 then EmptyGeometry
        else Assemble(coords, s, PlotHeight(height))
  }

  lemma {:induction false} NoFiniteValueNoUsable(points: seq<Sample>)
    requires forall i :: 0 <= i < |points| ==> points[i].pct.None?
    ensures Keep(points) == []
  {
    if points != [] {
      NoFiniteValueNoUsable(points[1..]);
    }
  }

  /** Keeping the drawn samples distributes over concatenation: order is
      kept and a skipped sample does not affect the ones after it. */
  lemma {:induction false} KeepConcat(a: seq<Sample>, b: seq<Sample>)
    ensures Keep(a + b) == Keep(a) + Keep(b)
  {
    if a != [] {
      assert (a + b)[0] == a[0];
      assert (a + b)[1..] == a[1..] + b;
      KeepConcat(a[1..], b);
      if Usable(a[0]) {
        assert Keep(a + b) == [a[0]] + (Keep(a[1..]) + Keep(b));
        assert Keep(a) == [a[0]] + Keep(a[1..]);
        assert [a[0]] + (Keep(a[1..]) + Keep(b)) == ([a[0]] + Keep(a[1..])) + Keep(b);
      } else {
        assert Keep(a + b) == Keep(a[1..]) + Keep(b);
      }
    } else {
      assert a + b == b;
    }
  }

  /** The coordinates of a concatenation are the coordinates of the parts,
      in order. */
  lemma {:induction false} CoordsConcat(a: seq<Sample>, b: seq<Sample>, s: Scale, plotWidth: real, plotHeight: real)
    requires s.minPadded < s.maxPadded
    ensures Coords(a + b, s, plotWidth, plotHeight)
         == Coords(a, s, plotWidth, plotHeight) + Coords(b, s, plotWidth, plotHeight)
  {
    KeepConcat(a, b);
  }

  /** A single sample contributes its coordinate when it is drawn and nothing
      otherwise. */
  lemma CoordsSingle(p: Sample, s: Scale, plotWidth: real, plotHeight: real)
    requires s.minPadded < s.maxPadded
    ensures Coords([p], s, plotWidth, plotHeight)
         == if Usable(p) then [PointOf(p, s, plotWidth, plotHeight)] else []
  {
  }

  /** The coordinates of `buildPath` are, one for one and in input order, the
      coordinates of the drawn samples. */
  lemma BuildPathCoordsInOrder(points: seq<Sample>, width: real, height: real)
    requires Keep(points) != []
    ensures var g := BuildPath(points, width, height);
      && g.scale.Some? && g.scale.value.minPadded < g.scale.value.maxPadded
      && forall k :: 0 <= k < |g.coords| ==>
           g.coords[k] == PointOf(Keep(points)[k], g.scale.value, PlotWidth(width), PlotHeight(height))
  {
  }

  /** A drawn last sample is the last one kept. */
  lemma {:induction false} LastKeptIsLast(points: seq<Sample>)
    requires |points| > 0 && Usable(points[|points| - 1])
    ensures var kept := Keep(points);
      |kept| > 0 && kept[|kept| - 1] == points[|points| - 1]
  {
    var last := points[|points| - 1];
    var init := points[..|points| - 1];
    assert points == init + [last];
    KeepConcat(init, [last]);
    assert Keep([last]) == [last];
  }

  /** When the last sample is drawn, the line ends at its height. */
  lemma {:induction false} LineEndsAtLastSample(points: seq<Sample>, width: real, height: real)
    requires |points| > 0 && Usable(points[|points| - 1])
    ensures var g := BuildPath(points, width, height);
      && |g.coords| > 0
      && g.scale.Some? && g.scale.value.minPadded < g.scale.value.maxPadded
      && g.coords[|g.coords| - 1].y == ToY(g.scale.value, points[|points| - 1].pct.value, PlotHeight(height))
  {
    var s := ScaleOf(FiniteValues(points));
    LastKeptIsLast(points);
    BuildPathCoords(points, width, height);
    CoordsEndAtLastSample(points, s, PlotWidth(width), PlotHeight(height));
    PointOfHeight(points[|points| - 1], s, PlotWidth(width), PlotHeight(height));
  }

  /** When the last sample is drawn, the last coordinate is its point. */
  lemma {:induction false} CoordsEndAtLastSample(points: seq<Sample>, s: Scale, plotWidth: real, plotHeight: real)
    requires s.minPadded < s.maxPadded
    requires |points| > 0 && Usable(points[|points| - 1])
    ensures var cs := Coords(points, s, plotWidth, plotHeight);
      |cs| > 0 && cs[|cs| - 1] == PointOf(points[|points| - 1], s, plotWidth, plotHeight)
  {
    var init := points[..|points| - 1];
    var last := points[|points| - 1];
    assert points == init + [last];
    CoordsConcat(init, [last], s, plotWidth, plotHeight);
    CoordsSingle(last, s, plotWidth, plotHeight);
  }

  /** A drawn sample is drawn at the column of its session minute. */
  lemma PointOfColumn(p: Sample, s: Scale, plotWidth: real, plotHeight: real)
    requires s.minPadded < s.maxPadded && Usable(p)
    ensures PointOf(p, s, plotWidth, plotHeight).x == ToX(MinutesOf(p.time).value, plotWidth)
  {
  }

  /** Every coordinate of `buildPath` sits at the column of its sample's
      session minute. */
  lemma {:induction false} BuildPathColumns(points: seq<Sample>, width: real, height: real, k: int)
    requires 0 <= k < |Keep(points)|
    ensures var g := BuildPath(points, width, height);
      k < |g.coords| && g.coords[k].x == ToX(MinutesOf(Keep(points)[k].time).value, PlotWidth(width))
  {
    var s := ScaleOf(FiniteValues(points));
    BuildPathCoords(points, width, height);
    var cs := Coords(points, s, PlotWidth(width), PlotHeight(height));
    assert cs[k] == PointOf(Keep(points)[k], s, PlotWidth(width), PlotHeight(height));
    PointOfColumn(Keep(points)[k], s, PlotWidth(width), PlotHeight(height));
  }

  /** A drawn sample is drawn at the height of its value. */
  lemma PointOfHeight(p: Sample, s: Scale, plotWidth: real, plotHeight: real)
    requires s.minPadded < s.maxPadded && Usable(p)
    ensures PointOf(p, s, plotWidth, plotHeight).y == ToY(s, p.pct.value, plotHeight)
  {
  }

  lemma QuotientPositive(a: real, d: real)
    requires 0.0 < a && 0.0 < d
    ensures 0.0 < a / d
  {
  }

  /** Fractions of a positive span stay inside the unit interval. */
  lemma FractionInsideUnit(a: real, d: real)
    requires 0.0 < a < d
    ensures 0.0 < a / d < 1.0
  {
    QuotientPositive(a, d);
    assert (d - a) / d + a / d == d / d;
    assert d / d == 1.0;
    QuotientPositive(d - a, d);
  }

  lemma ScaledInside(f: real, h: real)
    requires 0.0 < f < 1.0 && h > 0.0
    ensures 0.0 < f * h < h
  {
  }

  /** A value strictly inside the padded range is drawn strictly inside the
      plot's vertical band. */
  lemma YInsideBand(s: Scale, v: real, plotHeight: real)
    requires s.minPadded < v < s.maxPadded && plotHeight > 0.0
    ensures Margins.top < ToY(s, v, plotHeight) < Margins.top + plotHeight
  {
    var f := (s.maxPadded - v) / (s.maxPadded - s.minPadded);
    FractionInsideUnit(s.maxPadded - v, s.maxPadded - s.minPadded);
    ScaledInside(f, plotHeight);
    var a := f * plotHeight;
    assert 0.0 < a < plotHeight;
    assert ToY(s, v, plotHeight) == Margins.top + a;
  }

  /** Larger values are drawn strictly higher (smaller y). */
  lemma HigherValueIsHigherOnScreen(s: Scale, v1: real, v2: real, plotHeight: real)
    requires s.minPadded < s.maxPadded && plotHeight > 0.0
    requires v1 < v2
    ensures ToY(s, v2, plotHeight) < ToY(s, v1, plotHeight)
  {
    var d := s.maxPadded - s.minPadded;
    var f1 := (s.maxPadded - v1) / d;
    var f2 := (s.maxPadded - v2) / d;
    assert f2 < f1 by {
      assert f1 - f2 == (v2 - v1) / d;
    }
    assert f2 * plotHeight < f1 * plotHeight by {
      assert f1 * plotHeight - f2 * plotHeight == (f1 - f2) * plotHeight;
    }
  }

  /** The ends of the padded range are the edges of the plot: the padded
      maximum on the top margin, the padded minimum on the floor the area
      closes on. */
  lemma YAtPaddedEnds(s: Scale, plotHeight: real)
    requires s.minPadded < s.maxPadded
    ensures ToY(s, s.maxPadded, plotHeight) == Margins.top
    ensures ToY(s, s.minPadded, plotHeight) == Margins.top + plotHeight
  {
    var d := s.maxPadded - s.minPadded;
    assert (s.maxPadded - s.minPadded) / d == 1.0;
  }

  /** Vertical distance is proportional to the difference of the values, at
      `plotHeight` per padded span. */
  lemma YDifference(s: Scale, v: real, w: real, plotHeight: real)
    requires s.minPadded < s.maxPadded
    ensures ToY(s, v, plotHeight) - ToY(s, w, plotHeight)
         == ((w - v) / (s.maxPadded - s.minPadded)) * plotHeight
  {
    var d := s.maxPadded - s.minPadded;
    var fv := (s.maxPadded - v) / d;
    var fw := (s.maxPadded - w) / d;
    assert fv - fw == (w - v) / d;
    assert fv * plotHeight - fw * plotHeight == (fv - fw) * plotHeight;
  }

  /** Session minutes land between the left margin and the right edge of the
      plot, in order. */
  lemma XInsidePlot(m: int, plotWidth: real)
    requires 0 <= m <= SessionLength && plotWidth >= 0.0
    ensures Margins.left <= ToX(m, plotWidth) <= Margins.left + plotWidth
  {
    var f := m as real / SessionLength as real;
    assert 0.0 <= f <= 1.0;
    assert f * plotWidth <= plotWidth by {
      assert plotWidth - f * plotWidth == (1.0 - f) * plotWidth;
    }
  }

  lemma XMonotone(m1: int, m2: int, plotWidth: real)
    requires m1 <= m2 && plotWidth >= 0.0
    ensures ToX(m1, plotWidth) <= ToX(m2, plotWidth)
  {
    var f1 := m1 as real / SessionLength as real;
    var f2 := m2 as real / SessionLength as real;
    var d := f2 - f1;
    assert 0.0 <= d;
    ProductNonNegative(d, plotWidth);
    assert ToX(m2, plotWidth) == ToX(m1, plotWidth) + d * plotWidth;
  }

  lemma ProductNonNegative(a: real, b: real)
    requires 0.0 <= a && 0.0 <= b
    ensures 0.0 <= a * b
  {
  }

  lemma ProductPositive(a: real, b: real)
    requires 0.0 < a && 0.0 < b
    ensures 0.0 < a * b
  {
  }

  /** On a plot of positive width, a later session minute is drawn strictly
      further right. */
  lemma XStrictlyMonotone(m1: int, m2: int, plotWidth: real)
    requires m1 < m2 && plotWidth > 0.0
    ensures ToX(m1, plotWidth) < ToX(m2, plotWidth)
  {
    var f1 := m1 as real / SessionLength as real;
    var f2 := m2 as real / SessionLength as real;
    var d := f2 - f1;
    assert 0.0 < d;
    ProductPositive(d, plotWidth);
    assert ToX(m2, plotWidth) == ToX(m1, plotWidth) + d * plotWidth;
  }

  /** Horizontal distance is proportional to the elapsed session minutes, at
      `plotWidth` per session. */
  lemma XDifference(m1: int, m2: int, plotWidth: real)
    ensures ToX(m2, plotWidth) - ToX(m1, plotWidth)
         == ((m2 - m1) as real / SessionLength as real) * plotWidth
  {
    var f1 := m1 as real / SessionLength as real;
    var f2 := m2 as real / SessionLength as real;
    assert f2 - f1 == (m2 - m1) as real / SessionLength as real;
    assert f2 * plotWidth - f1 * plotWidth == (f2 - f1) * plotWidth;
  }

  /** Every drawn value lies strictly inside the padded range of the finite
      values. */
  lemma UsableValueInsideScale(points: seq<Sample>, p: Sample)
    requires p in points && Usable(p)
    ensures ScaleOf(FiniteValues(points)).minPadded < p.pct.value < ScaleOf(FiniteValues(points)).maxPadded
  {
    var vs := FiniteValues(points);
    var i :| 0 <= i < |points| && points[i] == p;
    assert p.pct.value in vs;
    var j :| 0 <= j < |vs| && vs[j] == p.pct.value;
    ValuesInsidePaddedRange(vs, j);
  }

  /** On any canvas with room for the plot, every coordinate lies in the
      plot: x within [left, width - right] and y strictly between the top
      margin and the floor, and so does the zero baseline. */
  lemma {:induction false} CoordsInsidePlot(points: seq<Sample>, width: real, height: real)
    requires PlotWidth(width) >= 0.0 && PlotHeight(height) > 0.0
    ensures var g := BuildPath(points, width, height);
      && (forall k :: 0 <= k < |g.coords| ==>
            && Margins.left <= g.coords[k].x <= width - Margins.right
            && Margins.top < g.coords[k].y < height - Margins.bottom)
      && (g.zeroY.Some? ==> Margins.top < g.zeroY.value < height - Margins.bottom)
  {
    var g := BuildPath(points, width, height);
    if Keep(points) != [] {
      var s := g.scale.value;
      var pw := PlotWidth(width);
      var ph := PlotHeight(height);
      forall k | 0 <= k < |g.coords|
        ensures Margins.left <= g.coords[k].x <= width - Margins.right
        ensures Margins.top < g.coords[k].y < height - Margins.bottom
      {
        var p := Keep(points)[k];
        assert p in Keep(points);
        UsableValueInsideScale(points, p);
        XInsidePlot(MinutesOf(p.time).value, pw);
        YInsideBand(s, p.pct.value, ph);
      }
      YInsideBand(s, 0.0, ph);
    }
  }

  /** A drawn sample lies above the zero baseline exactly when its value is
      positive, on it exactly when its value is zero, and below it exactly
      when its value is negative. */
  lemma {:induction false} SideOfBaseline(points: seq<Sample>, width: real, height: real, k: int)
    requires PlotHeight(height) > 0.0
    requires 0 <= k < |Keep(points)|
    ensures var g := BuildPath(points, width, height);
      var v := Keep(points)[k].pct.value;
      && g.zeroY.Some? && k < |g.coords|
      && (g.coords[k].y < g.zeroY.value <==> v > 0.0)
      && (g.coords[k].y == g.zeroY.value <==> v == 0.0)
      && (g.coords[k].y > g.zeroY.value <==> v < 0.0)
  {
    var g := BuildPath(points, width, height);
    BuildPathCoordsInOrder(points, width, height);
    var s := g.scale.value;
    var ph := PlotHeight(height);
    var v := Keep(points)[k].pct.value;
    assert g.coords[k].y == ToY(s, v, ph);
    if v > 0.0 {
      HigherValueIsHigherOnScreen(s, 0.0, v, ph);
    } else if v < 0.0 {
      HigherValueIsHigherOnScreen(s, v, 0.0, ph);
    }
  }

  /** The same bounds on the fixed 1000 x 120 canvas: x in [44, 990] and y and
      the baseline strictly between 10 and 102. */
  lemma {:induction false} FixedCanvasBounds(points: seq<Sample>)
    ensures var g := BuildPath(points, Width, Height);
      && (forall k :: 0 <= k < |g.coords| ==>
            44.0 <= g.coords[k].x <= 990.0 && 10.0 < g.coords[k].y < 102.0)
      && (g.zeroY.Some? ==> 10.0 < g.zeroY.value < 102.0)
  {
    CoordsInsidePlot(points, Width, Height);
  }

  /** Wall-clock minutes since midnight of a sample whose time parses. */
  function WallMinutes(p: Sample): int
    requires MinutesOf(p.time).Some?
  {
    p.time.hour.value * 60 + p.time.minute.value
  }

  /** Of two drawn samples, `p` is not later in the day than `q`. */
  predicate NotLater(p: Sample, q: Sample) {
    Usable(p) && Usable(q) ==> WallMinutes(p) <= WallMinutes(q)
  }

  /** The drawn samples appear in order of time of day. */
  predicate TimeOrdered(points: seq<Sample>) {
    forall i, j :: 0 <= i < j < |points| ==> NotLater(points[i], points[j])
  }

  lemma TimeOrderedTail(points: seq<Sample>)
    requires points != [] && TimeOrdered(points)
    ensures TimeOrdered(points[1..])
  {
    var rest := points[1..];
    forall i, j | 0 <= i < j < |rest|
      ensures NotLater(rest[i], rest[j])
    {
      assert rest[i] == points[i + 1] && rest[j] == points[j + 1];
    }
  }

  lemma HeadNotLaterThanKept(points: seq<Sample>, q: Sample)
    requires points != [] && TimeOrdered(points)
    requires q in Keep(points[1..])
    ensures NotLater(points[0], q)
  {
    var rest := points[1..];
    var jj :| 0 <= jj < |rest| && rest[jj] == q;
    assert points[jj + 1] == q;
  }

  /** Putting in front a sample that is not later than any of the rest keeps
      a time-ordered list time-ordered. */
  lemma ConsTimeOrdered(h: Sample, tail: seq<Sample>)
    requires TimeOrdered(tail)
    requires forall q :: q in tail ==> NotLater(h, q)
    ensures TimeOrdered([h] + tail)
  {
    var l := [h] + tail;
    forall i, j | 0 <= i < j < |l|
      ensures NotLater(l[i], l[j])
    {
      assert l[j] == tail[j - 1];
      if i > 0 {
        assert l[i] == tail[i - 1];
      }
    }
  }

  lemma {:induction false} KeepTimeOrdered(points: seq<Sample>)
    requires TimeOrdered(points)
    ensures TimeOrdered(Keep(points))
  {
    if points != [] {
      var rest := points[1..];
      TimeOrderedTail(points);
      KeepTimeOrdered(rest);
      if Usable(points[0]) {
        forall q | q in Keep(rest)
          ensures NotLater(points[0], q)
        {
          HeadNotLaterThanKept(points, q);
        }
        ConsTimeOrdered(points[0], Keep(rest));
      }
    }
  }

  /** Two kept samples in time order are drawn left to right. */
  lemma KeptInOrderLeftToRight(points: seq<Sample>, plotWidth: real, k: int, l: int)
    requires plotWidth >= 0.0
    requires TimeOrdered(Keep(points))
    requires 0 <= k < l < |Keep(points)|
    ensures ToX(MinutesOf(Keep(points)[k].time).value, plotWidth) <= ToX(MinutesOf(Keep(points)[l].time).value, plotWidth)
  {
    var p := Keep(points)[k];
    var q := Keep(points)[l];
    assert p in Keep(points) && q in Keep(points);
    assert NotLater(p, q);
    SessionMinuteMonotone(WallMinutes(p), WallMinutes(q));
    XMonotone(MinutesOf(p.time).value, MinutesOf(q.time).value, plotWidth);
  }

  /** When the samples come in time order, the line never steps backwards:
      x is non-decreasing along the coordinates. */
  lemma {:induction false} TimeOrderGivesNonDecreasingX(points: seq<Sample>, width: real, height: real)
    requires TimeOrdered(points) && PlotWidth(width) >= 0.0
    ensures var g := BuildPath(points, width, height);
      forall k, l :: 0 <= k < l < |g.coords| ==> g.coords[k].x <= g.coords[l].x
  {
    var g := BuildPath(points, width, height);
    if Keep(points) != [] {
      KeepTimeOrdered(points);
      forall k, l | 0 <= k < l < |g.coords|
        ensures g.coords[k].x <= g.coords[l].x
      {
        BuildPathColumns(points, width, height, k);
        BuildPathColumns(points, width, height, l);
        KeptInOrderLeftToRight(points, PlotWidth(width), k, l);
      }
    }
  }

  /** The coordinates `buildPath` draws are those of the drawn samples under
      the padded range of the finite values. */
  lemma BuildPathCoords(points: seq<Sample>, width: real, height: real)
    requires Keep(points) != []
    ensures var s := ScaleOf(FiniteValues(points));
      BuildPath(points, width, height).coords == Coords(points, s, PlotWidth(width), PlotHeight(height))
  {
    var p := Keep(points)[0];
    assert p in points;
    var i :| 0 <= i < |points| && points[i] == p;
    assert FiniteValues(points) != [];
  }

  /** A drawn sample at `hh:mm` lands at the x of its session minute. */
  lemma {:induction false} DrawnColumnAt(points: seq<Sample>, s: Scale, k: int, hh: int, mm: int, t: int, x: real, plotWidth: real, plotHeight: real)
    requires s.minPadded < s.maxPadded
    requires Keep(points) == points && 0 <= k < |points|
    requires points[k].time == Clock(Some(hh), Some(mm)) && points[k].pct.Some?
    requires hh * 60 + mm == t && ToX(SessionMinute(t), plotWidth) == x
    ensures Coords(points, s, plotWidth, plotHeight)[k].x == x
  {
    var p := points[k];
    assert Keep(points)[k] == p;
    assert MinutesOf(p.time) == Some(SessionMinute(t));
    assert PointOf(p, s, plotWidth, plotHeight).x == ToX(SessionMinute(t), plotWidth);
  }

  /** A drawn sample with value `v` lands at the y of `v`. */
  lemma {:induction false} DrawnRowAt(points: seq<Sample>, s: Scale, k: int, v: real, plotWidth: real, plotHeight: real)
    requires s.minPadded < s.maxPadded
    requires Keep(points) == points && 0 <= k < |points|
    requires points[k].pct == Some(v)
    ensures Coords(points, s, plotWidth, plotHeight)[k].y == ToY(s, v, plotHeight)
  {
    assert Coords(points, s, plotWidth, plotHeight)[k] == PointOf(points[k], s, plotWidth, plotHeight);
    assert points[k] in Keep(points);
  }

  /** Where the session open, 10:00, the lunch break and the close fall on
      the fixed canvas. */
  lemma FixedCanvasColumns()
    ensures ToX(SessionMinute(570), PlotWidth(Width)) == 44.0
    ensures ToX(SessionMinute(600), PlotWidth(Width)) == 162.25
    ensures ToX(SessionMinute(690), PlotWidth(Width)) == 517.0
    ensures ToX(SessionMinute(900), PlotWidth(Width)) == 990.0
  {
  }

  lemma {:induction false} FourSamplesAllDrawn(points: seq<Sample>)
    requires |points| == 4
    requires points[0] == Sample(Clock(Some(9), Some(30)), Some(0.0))
    requires points[1] == Sample(Clock(Some(10), Some(0)), Some(1.2))
    requires points[2] == Sample(Clock(Some(11), Some(30)), Some(-0.5))
    requires points[3] == Sample(Clock(Some(15), Some(0)), Some(2.0))
    ensures Keep(points) == points
  {
    assert Keep(points[3..]) == points[3..];
    assert Keep(points[2..]) == points[2..];
    assert Keep(points[1..]) == points[1..];
  }

  /** A morning-to-close day on the fixed canvas: four drawn samples, at
      session minutes 0, 30, 120 and 240. */
  lemma {:induction false} FourSampleDayColumns(points: seq<Sample>, s: Scale)
    requires |points| == 4
    requires points[0] == Sample(Clock(Some(9), Some(30)), Some(0.0))
    requires points[1] == Sample(Clock(Some(10), Some(0)), Some(1.2))
    requires points[2] == Sample(Clock(Some(11), Some(30)), Some(-0.5))
    requires points[3] == Sample(Clock(Some(15), Some(0)), Some(2.0))
    requires s.minPadded < s.maxPadded
    ensures var cs := Coords(points, s, PlotWidth(Width), PlotHeight(Height));
      && |cs| == 4
      && cs[0].x == 44.0 && cs[1].x == 162.25
      && cs[2].x == 517.0 && cs[3].x == 990.0
  {
    FourSamplesAllDrawn(points);
    var pw := PlotWidth(Width);
    var ph := PlotHeight(Height);
    FixedCanvasColumns();
    DrawnColumnAt(points, s, 0, 9, 30, 570, 44.0, pw, ph);
    DrawnColumnAt(points, s, 1, 10, 0, 600, 162.25, pw, ph);
    DrawnColumnAt(points, s, 2, 11, 30, 690, 517.0, pw, ph);
    DrawnColumnAt(points, s, 3, 15, 0, 900, 990.0, pw, ph);
  }

  /** On the same day, whatever the padded range, the -0.5 sample is drawn
      below the 2.0 sample. */
  lemma {:induction false} FourSampleDayHeights(points: seq<Sample>, s: Scale)
    requires |points| == 4
    requires points[0] == Sample(Clock(Some(9), Some(30)), Some(0.0))
    requires points[1] == Sample(Clock(Some(10), Some(0)), Some(1.2))
    requires points[2] == Sample(Clock(Some(11), Some(30)), Some(-0.5))
    requires points[3] == Sample(Clock(Some(15), Some(0)), Some(2.0))
    requires s.minPadded < s.maxPadded
    ensures var cs := Coords(points, s, PlotWidth(Width), PlotHeight(Height));
      |cs| == 4 && cs[2].y > cs[3].y
  {
    FourSamplesAllDrawn(points);
    var pw := PlotWidth(Width);
    var ph := PlotHeight(Height);
    assert ph == 92.0;
    DrawnRowAt(points, s, 2, -0.5, pw, ph);
    DrawnRowAt(points, s, 3, 2.0, pw, ph);
    HigherValueIsHigherOnScreen(s, -0.5, 2.0, ph);
  }

  /** The four-sample day through `buildPath` on the fixed canvas: four
      coordinates at x = 44, 162.25, 517 and 990, the -0.5 sample below the
      2.0 sample, and both paths drawn. */
  lemma {:induction false} FourSampleDay(points: seq<Sample>)
    requires |points| == 4
    requires points[0] == Sample(Clock(Some(9), Some(30)), Some(0.0))
    requires points[1] == Sample(Clock(Some(10), Some(0)), Some(1.2))
    requires points[2] == Sample(Clock(Some(11), Some(30)), Some(-0.5))
    requires points[3] == Sample(Clock(Some(15), Some(0)), Some(2.0))
    ensures var g := BuildPath(points, Width, Height);
      && |g.coords| == 4
      && g.coords[0].x == 44.0 && g.coords[1].x == 162.25
      && g.coords[2].x == 517.0 && g.coords[3].x == 990.0
      && g.coords[2].y > g.coords[3].y
      && |g.linePath| == 4 && |g.areaPath| == 7
  {
    FourSamplesAllDrawn(points);
    BuildPathCoords(points, Width, Height);
    var s := ScaleOf(FiniteValues(points));
    FourSampleDayColumns(points, s);
    FourSampleDayHeights(points, s);
  }
}

=== FILE: path_data.dfy ===
/** Path geometry as the drawing commands of SVG path data (section 8.3 of
    SVG 1.1): moveto `M`, lineto `L` and closepath `Z`, with coordinates kept
    as exact reals rather than decimal text. */
module PathData {
  import opened Wrappers

  datatype Point = Point(x: real, y: real)

  datatype Command = Move(x: real, y: real) | Line(x: real, y: real) | Close

  /** One lineto per point, in order. */
  function LineTos(cs: seq<Point>): (path: seq<Command>)
    ensures |path| == |cs|
  {
    if cs == [] then [] else [Line(cs[0].x, cs[0].y)] + LineTos(cs[1..])
  }

  /** The line through the points: a moveto to the first, a lineto to each
      of the others. No points give the empty path. */
  function LinePath(cs: seq<Point>): (path: seq<Command>)
    ensures |path| == |cs|
  {
    if cs == [] then [] else [Move(cs[0].x, cs[0].y)] + LineTos(cs[1..])
  }

  /** The area under the line: the line path, then down to `bottom` below the
      last point, across to below the first point, and closed. */
  function AreaPath(cs: seq<Point>, bottom: real): (path: seq<Command>)
    requires cs != []
    ensures |path| == |cs| + 3
  {
    LinePath(cs) + [Line(cs[|cs| - 1].x, bottom), Line(cs[0].x, bottom), Close]
  }

  /** Reads back the points of a path made only of linetos. */
  function ParseLineTos(path: seq<Command>): (r: Option<seq<Point>>)
    ensures r.Some? ==> |r.value| == |path|
  {
    if path == [] then Some([])
    else if !path[0].Line? then None
    else match ParseLineTos(path[1..])
      case None => None
      case Some(rest) => Some([Point(path[0].x, path[0].y)] + rest)
  }

  /** Reads back the points of a line path: one moveto followed only by
      linetos. Anything else is rejected. */
  function ParseLine(path: seq<Command>): (r: Option<seq<Point>>)
    ensures r.Some? ==> |r.value| == |path| >= 1
  {
    if path == [] || !path[0].Move? then None
    else match ParseLineTos(path[1..])
      case None => None
      case Some(rest) => Some([Point(path[0].x, path[0].y)] + rest)
  }

  /** Reads back the points and the floor of an area path: a line path, a
      lineto straight below its last point, a lineto at the same height below
      its first point, and a closepath. */
  function ParseArea(path: seq<Command>): (r: Option<(seq<Point>, real)>)
  {
    if |path| < 4 then None
    else
      var n := |path|;
      match ParseLine(path[..n - 3])
      case None => None
      case Some(cs) =>
        var down := path[n - 3];
        var across := path[n - 2];
        if down.Line? && across.Line? && path[n - 1].Close?
           && down.x == cs[|cs| - 1].x && across.x == cs[0].x && across.y == down.y
        then Some((cs, down.y))
        else None
  }

  lemma {:induction false} ParseLineTosInvertsLineTos(cs: seq<Point>)
    ensures ParseLineTos(LineTos(cs)) == Some(cs)
  {
    if cs != [] {
      var path := LineTos(cs);
      assert path[1..] == LineTos(cs[1..]);
      ParseLineTosInvertsLineTos(cs[1..]);
      assert cs == [cs[0]] + cs[1..];
    }
  }

  lemma {:induction false} LineTosFromParse(path: seq<Command>)
    requires ParseLineTos(path).Some?
    ensures LineTos(ParseLineTos(path).value) == path
  {
    if path != [] {
      var rest := ParseLineTos(path[1..]).value;
      LineTosFromParse(path[1..]);
      var cs := ParseLineTos(path).value;
      assert cs[1..] == rest;
    }
  }

  /** Round trip: every non-empty list of points is recovered from its line path. */
  lemma LinePathRoundTrip(cs: seq<Point>)
    requires cs != []
    ensures ParseLine(LinePath(cs)) == Some(cs)
  {
    var path := LinePath(cs);
    assert path[1..] == LineTos(cs[1..]);
    ParseLineTosInvertsLineTos(cs[1..]);
    assert cs == [cs[0]] + cs[1..];
  }

  /** Conversely, every path the parser accepts as a line path is exactly the
      line path of the points it reads: one moveto, then linetos only. */
  lemma LinePathFromParse(path: seq<Command>)
    requires ParseLine(path).Some?
    ensures LinePath(ParseLine(path).value) == path
    ensures path[0].Move? && forall k :: 1 <= k < |path| ==> path[k].Line?
  {
    LineTosFromParse(path[1..]);
    var cs := ParseLine(path).value;
    assert cs[1..] == ParseLineTos(path[1..]).value;
    forall k | 1 <= k < |path|
      ensures path[k].Line?
    {
      LineTosAreLines(cs[1..], k - 1);
    }
  }

  lemma {:induction false} LineTosAreLines(cs: seq<Point>, k: int)
    requires 0 <= k < |cs|
    ensures LineTos(cs)[k] == Line(cs[k].x, cs[k].y)
  {
    if k > 0 {
      LineTosAreLines(cs[1..], k - 1);
    }
  }

  /** Round trip: the points and the floor are recovered from the area path. */
  lemma AreaPathRoundTrip(cs: seq<Point>, bottom: real)
    requires cs != []
    ensures ParseArea(AreaPath(cs, bottom)) == Some((cs, bottom))
  {
    var path := AreaPath(cs, bottom);
    assert path[..|path| - 3] == LinePath(cs);
    LinePathRoundTrip(cs);
  }

  /** Conversely, every path the parser accepts as an area path is the area
      path of the points and floor it reads. */
  lemma {:induction false} AreaPathFromParse(path: seq<Command>)
    requires ParseArea(path).Some?
    ensures AreaPath(ParseArea(path).value.0, ParseArea(path).value.1) == path
  {
    var n := |path|;
    var line := path[..n - 3];
    var cs := ParseLine(line).value;
    var bottom := ParseArea(path).value.1;
    assert ParseArea(path).value.0 == cs;
    LinePathFromParse(line);
    assert path[n - 3..] == [Line(cs[|cs| - 1].x, bottom), Line(cs[0].x, bottom), Close];
    assert path == line + path[n - 3..];
  }
}

=== FILE: presentation.dfy ===
/** The value logic of the FundChart component around the geometry: the
    stored series it reads, the latest value and its sign, the date shown in
    the header and the "no data" state. */
module Presentation {
  import opened Wrappers
  import opened ChartGeometry

  /** At most this many of the most recent samples are kept. */
  const MaxPoints: nat := 300

  /** The stored intraday series of one fund. */
  datatype TrendSeries = TrendSeries(date: string, points: seq<Sample>)

  const NoSeries: TrendSeries := TrendSeries("", [])

  /** The most recent samples, oldest dropped first (`slice(-MAX_POINTS)`). */
  function Recent(points: seq<Sample>): (r: seq<Sample>)
    ensures |r| == if |points| <= MaxPoints then |points| else MaxPoints
    ensures points == points[..|points| - |r|] + r
  {
    if |points| <= MaxPoints then points else points[|points| - MaxPoints..]
  }

  /** The pure tail of reading the stored series: `None` stands for every way
      the read can fail (no fund code, nothing stored, unreadable or malformed
      entry), which all give the empty series. */
  function LoadTrend(stored: Option<TrendSeries>): (r: TrendSeries)
    ensures |r.points| <= MaxPoints
    ensures stored.None? ==> r == NoSeries
    ensures stored.Some? ==> r.date == stored.value.date && r.points == Recent(stored.value.points)
  {
    match stored
    case None => NoSeries
    case Some(data) => TrendSeries(data.date, Recent(data.points))
  }

  /** The value shown in the header: the last sample's value if finite, else
      the externally supplied estimate if finite, else none. */
  function LatestValue(points: seq<Sample>, latestPct: Option<real>): (r: Option<real>)
    ensures r.Some? <==> (|points| > 0 && points[|points| - 1].pct.Some?) || latestPct.Some?
    ensures |points| > 0 && points[|points| - 1].pct.Some? ==> r == points[|points| - 1].pct
    ensures !(|points| > 0 && points[|points| - 1].pct.Some?) ==> r == latestPct
  {
    if |points| > 0 && points[|points| - 1].pct.Some? then points[|points| - 1].pct
    else if latestPct.Some? then latestPct
    else None
  }

  /** Whether the value counts as up; a missing value counts as up. */
  function IsUp(value: Option<real>): (r: bool)
    ensures value.None? ==> r
    ensures value.Some? ==> (r <==> value.value >= 0.0)
  {
    match value
    case None => true
    case Some(v) => v >= 0.0
  }

  /** The explicit sign the label puts in front of a value. */
  function SignPrefix(v: real): (r: string)
    ensures r == "+" <==> v >= 0.0
    ensures r == "" <==> v < 0.0
  {
    if v >= 0.0 then "+" else ""
  }

  /** The sign that fixed-point formatting itself writes for a value. */
  function FormattedSign(v: real): (r: string)
    ensures r == "-" <==> v < 0.0
    ensures r == "" <==> v >= 0.0
  {
    if v < 0.0 then "-" else ""
  }

  /** Every label carries exactly one sign character: `+` exactly when the
      value counts as up and `-` exactly when it does not. */
  lemma LabelHasOneSign(v: real)
    ensures |SignPrefix(v) + FormattedSign(v)| == 1
    ensures SignPrefix(v) + FormattedSign(v) == "+" <==> IsUp(Some(v))
    ensures SignPrefix(v) + FormattedSign(v) == "-" <==> !IsUp(Some(v))
  {
    if v >= 0.0 {
      assert SignPrefix(v) + FormattedSign(v) == "+";
    } else {
      assert SignPrefix(v) + FormattedSign(v) == "-";
      assert "-"[0] != "+"[0];
    }
  }

  /** The part of `s` before its first space (`s.split(' ')[0]`). */
  function FirstField(s: string): (r: string)
    ensures |r| <= |s| && r == s[..|r|]
    ensures ' ' !in r
    ensures |r| < |s| ==> s[|r|] == ' '
  {
    if s == [] || s[0] == ' ' then [] else [s[0]] + FirstField(s[1..])
  }

  /** The date shown in the header: the series' own date, else the date part
      of the supplied timestamp, else empty. */
  function DisplayDate(date: string, latestTime: Option<string>): (r: string)
    ensures date != "" ==> r == date
    ensures date == "" && latestTime.Some? ==> r == FirstField(latestTime.value)
    ensures date == "" && latestTime.None? ==> r == ""
  {
    if date != "" then date
    else match latestTime
      case Some(t) => if t != "" then FirstField(t) else ""
      case None => ""
  }

  /** What the component shows. `noData` is the explicit "no data for the day"
      placeholder that replaces the plot. */
  datatype Display = Display(
    date: string,
    value: Option<real>,
    up: bool,
    geometry: Geometry,
    noData: bool)

  /** The component's values for the stored series and the externally
      supplied latest timestamp and estimate. */
  function FundChart(stored: Option<TrendSeries>, latestTime: Option<string>, latestPct: Option<real>): (d: Display)
    ensures d.noData <==> LoadTrend(stored).points == []
    ensures d.noData ==> d.geometry == EmptyGeometry
    ensures d.value.None? ==> d.up
    ensures d.value.None? ==> latestPct.None?
    ensures d.value.Some? ==> (d.up <==> d.value.value >= 0.0)
    ensures var points := LoadTrend(stored).points;
      && (|points| > 0 && points[|points| - 1].pct.Some? ==> d.value == points[|points| - 1].pct)
      && (!(|points| > 0 && points[|points| - 1].pct.Some?) ==> d.value == latestPct)
    ensures d.date == DisplayDate(LoadTrend(stored).date, latestTime)
    ensures d.geometry == BuildPath(LoadTrend(stored).points, Width, Height)
  {
    var series := LoadTrend(stored);
    var value := LatestValue(series.points, latestPct);
    Display(
      DisplayDate(series.date, latestTime),
      value,
      IsUp(value),
      BuildPath(series.points, Width, Height),
      |series.points| == 0)
  }

  /** Keeping only the most recent samples never changes the value shown. */
  lemma RecentKeepsLatest(points: seq<Sample>, latestPct: Option<real>)
    ensures LatestValue(Recent(points), latestPct) == LatestValue(points, latestPct)
  {
    if |points| > MaxPoints {
      var r := Recent(points);
      assert r[|r| - 1] == points[|points| - 1];
    }
  }

  /** Trimming is idempotent: a trimmed series is already short enough. */
  lemma RecentIdempotent(points: seq<Sample>)
    ensures Recent(Recent(points)) == Recent(points)
  {
  }

  /** When the last sample is drawn, the value in the header is that
      sample's value, and the line ends at the height of that value. */
  lemma {:induction false} LatestValueIsLineEnd(points: seq<Sample>, latestPct: Option<real>, width: real, height: real)
    requires |points| > 0 && Usable(points[|points| - 1])
    ensures var g := BuildPath(points, width, height);
      && LatestValue(points, latestPct) == points[|points| - 1].pct
      && |g.coords| > 0
      && g.scale.Some? && g.scale.value.minPadded < g.scale.value.maxPadded
      && g.coords[|g.coords| - 1].y == ToY(g.scale.value, points[|points| - 1].pct.value, PlotHeight(height))
  {
    LineEndsAtLastSample(points, width, height);
  }

  /** Stored samples none of which can be drawn do not give the "no data"
      placeholder: the plot is shown, with empty paths and no baseline. */
  lemma NothingDrawableIsNotNoData(stored: Option<TrendSeries>, latestTime: Option<string>, latestPct: Option<real>)
    requires LoadTrend(stored).points != [] && Keep(LoadTrend(stored).points) == []
    ensures var d := FundChart(stored, latestTime, latestPct);
      !d.noData && d.geometry == EmptyGeometry
  {
  }
}

=== FILE: session_clock.dfy ===
/** The session clock of FundChart: a time of day is placed on a compressed
    0..240 axis on which the morning session (09:30-11:30) and the afternoon
    session (13:00-15:00) are contiguous and the lunch break is a single point. */
module SessionClock {
  import opened Wrappers

  const MorningStart: int := 9 * 60 + 30
  const MorningEnd: int := 11 * 60 + 30
  const AfternoonStart: int := 13 * 60
  const AfternoonEnd: int := 15 * 60

  /** Length of the compressed axis: two sessions of 120 minutes each. */
  const SessionLength: int := 240

  /** A sample's time field after splitting it at ':' and converting both parts
      to numbers. `NoTime` is a missing or empty time string; a part is `None`
      when its conversion is not a finite number (absent, or not numeric). */
  datatype TimeOfDay = NoTime | Clock(hour: Option<int>, minute: Option<int>)

  /** Minute `t` (minutes since midnight) is one of the trading minutes that
      advance the session axis: the minute ending at `t` lies in a session. */
  predicate IsTradingMinute(t: int) {
    (MorningStart < t <= MorningEnd) || (AfternoonStart < t <= AfternoonEnd)
  }

  /** Independent reference: how many trading minutes have elapsed by
      minutes-since-midnight `t`. */
  ghost function TradedMinutes(t: int): nat
    decreases t - MorningStart
  {
    if t <= MorningStart then 0
    else TradedMinutes(t - 1) + (if IsTradingMinute(t) then 1 else 0)
  }

  /** Session minute of `total` minutes since midnight. */
  function SessionMinute(total: int): (r: int)
    ensures 0 <= r <= SessionLength
  {
    if total <= MorningStart then 0
    else if total <= MorningEnd then total - MorningStart
    else if total < AfternoonStart then 120
    else if total <= AfternoonEnd then 120 + (total - AfternoonStart)
    else 240
  }

  /** The clock applied to a raw time field; `None` plays the part of `null`. */
  function MinutesOf(time: TimeOfDay): (r: Option<int>)
    ensures r.None? <==> (time.NoTime? || time.hour.None? || time.minute.None?)
    ensures r.Some? ==> 0 <= r.value <= SessionLength
  {
    match time
    case NoTime => None
    case Clock(h, m) =>
      if h.None? || m.None? then None
      else
        Some(SessionMinute(h.value * 60 + m.value))
  }

  /** The session minute of a time is the number of trading minutes elapsed by it. */
  lemma {:induction false} SessionMinuteCountsTradedMinutes(t: int)
    ensures SessionMinute(t) == TradedMinutes(t)
    decreases t - MorningStart
  {
    if t > MorningStart {
      SessionMinuteCountsTradedMinutes(t - 1);
    }
  }

  /** Later wall-clock times never map to earlier session minutes, and the axis
      never advances faster than the wall clock. */
  lemma SessionMinuteMonotone(a: int, b: int)
    requires a <= b
    ensures SessionMinute(a) <= SessionMinute(b)
    ensures SessionMinute(b) - SessionMinute(a) <= b - a
  {
  }

  /** The lunch break, from the morning close through the afternoon open,
      collapses onto the single session minute 120. */
  lemma LunchBreakIsFlat(t: int)
    requires MorningEnd <= t <= AfternoonStart
    ensures SessionMinute(t) == 120
  {
  }

  /** Times at or before the morning open clamp to 0; times after the afternoon
      close clamp to 240. */
  lemma OutsideSessionsClamps(t: int)
    ensures t <= MorningStart ==> SessionMinute(t) == 0
    ensures t >= AfternoonEnd ==> SessionMinute(t) == SessionLength
  {
  }

  /** The wall-clock time at which the session axis reaches `s`: the inverse
      of the clock on trading times. */
  function WallClockOf(s: int): (t: int)
    requires 0 <= s <= SessionLength
    ensures MorningStart <= t <= AfternoonEnd
    ensures SessionMinute(t) == s
  {
    if s <= 120 then MorningStart + s else AfternoonStart + (s - 120)
  }

  /** On trading times (the morning session including its open, the afternoon
      session excluding its open, which shares minute 120 with the morning
      close) the clock is one-to-one and `WallClockOf` undoes it. */
  lemma WallClockOfInvertsSessionMinute(t: int)
    requires (MorningStart <= t <= MorningEnd) || (AfternoonStart < t <= AfternoonEnd)
    ensures WallClockOf(SessionMinute(t)) == t
  {
  }

  /** The session boundaries and a few sample times, as `HH:MM`. */
  lemma SessionMinuteLandmarks()
    ensures MinutesOf(Clock(Some(9), Some(30))) == Some(0)
    ensures MinutesOf(Clock(Some(10), Some(0))) == Some(30)
    ensures MinutesOf(Clock(Some(11), Some(30))) == Some(120)
    ensures MinutesOf(Clock(Some(12), Some(15))) == Some(120)
    ensures MinutesOf(Clock(Some(13), Some(0))) == Some(120)
    ensures MinutesOf(Clock(Some(15), Some(0))) == Some(240)
    ensures MinutesOf(Clock(Some(8), Some(0))) == Some(0)
    ensures MinutesOf(Clock(Some(16), Some(0))) == Some(240)
    ensures MinutesOf(NoTime) == None
    ensures MinutesOf(Clock(None, None)) == None
  {
  }
}

=== FILE: value_range.dfy ===
/** The vertical value range of the chart: the extremes of the finite
    percentages together with zero, padded above and below by 8% of their
    distance, that distance counted as at least 0.2. The extremes themselves
    are never widened. */
module ValueRange {

  /** Smallest width the padding is computed from; the raw extremes are not
      moved by it. */
  const MinRange: real := 0.2

  /** Fraction of the range added as padding on each side. */
  const PadRatio: real := 0.08

  /** The range handed to the geometry: the raw extremes and the padded ones. */
  datatype Scale = Scale(rawMin: real, rawMax: real, minPadded: real, maxPadded: real)

  function Min(a: real, b: real): real { if a <= b then a else b }

  function Max(a: real, b: real): real { if a >= b then a else b }

  /** Least of zero and the values (`Math.min(...values, 0)`). */
  function MinWithZero(vs: seq<real>): (r: real)
    ensures r <= 0.0
    ensures forall i :: 0 <= i < |vs| ==> r <= vs[i]
    ensures r == 0.0 || r in vs
  {
    if vs == [] then 0.0 else Min(vs[0], MinWithZero(vs[1..]))
  }

  /** Greatest of zero and the values (`Math.max(...values, 0)`). */
  function MaxWithZero(vs: seq<real>): (r: real)
    ensures r >= 0.0
    ensures forall i :: 0 <= i < |vs| ==> vs[i] <= r
    ensures r == 0.0 || r in vs
  {
    if vs == [] then 0.0 else Max(vs[0], MaxWithZero(vs[1..]))
  }

  /** The padded range of a list of finite values. */
  function ScaleOf(vs: seq<real>): (s: Scale)
    ensures s.rawMin == MinWithZero(vs) && s.rawMax == MaxWithZero(vs)
    ensures s.minPadded < s.rawMin <= 0.0 <= s.rawMax < s.maxPadded
    ensures s.rawMin - s.minPadded == s.maxPadded - s.rawMax >= PadRatio * MinRange
    ensures s.maxPadded - s.rawMax == PadRatio * Max(s.rawMax - s.rawMin, MinRange)
  {
    var rawMin := MinWithZero(vs);
    var rawMax := MaxWithZero(vs);
    var range := if rawMax - rawMin < MinRange then MinRange else rawMax - rawMin;
    var padding := range * PadRatio;
    Scale(rawMin, rawMax, rawMin - padding, rawMax + padding)
  }

  /** Every value lies strictly inside the padded range. */
  lemma ValuesInsidePaddedRange(vs: seq<real>, i: int)
    requires 0 <= i < |vs|
    ensures ScaleOf(vs).minPadded < vs[i] < ScaleOf(vs).maxPadded
  {
  }

  /** A series that is flat at zero hits the clamp: its raw range stays the
      single point zero, and the padding is 8% of the minimum width on each
      side. */
  lemma FlatZeroSeriesIsClamped(vs: seq<real>)
    requires forall i :: 0 <= i < |vs| ==> vs[i] == 0.0
    ensures ScaleOf(vs) == Scale(0.0, 0.0, -MinRange * PadRatio, MinRange * PadRatio)
  {
    assert MinWithZero(vs) == 0.0;
    assert MaxWithZero(vs) == 0.0;
  }

  /** Once the raw range is at least the minimum width, it fills exactly
      1/1.16 of the padded span; below it, the padded span is the raw range
      plus twice 8% of the minimum width. */
  lemma PaddedSpan(vs: seq<real>)
    ensures var s := ScaleOf(vs);
      && (s.rawMax - s.rawMin >= MinRange ==> s.maxPadded - s.minPadded == 1.16 * (s.rawMax - s.rawMin))
      && (s.rawMax - s.rawMin < MinRange ==> s.maxPadded - s.minPadded == s.rawMax - s.rawMin + 2.0 * PadRatio * MinRange)
  {
  }

  /** A series flat at +5 is not degenerate: zero stays in the range, so the
      raw range is [0, 5] and the clamp does not apply. */
  lemma FlatPositiveSeriesKeepsZero()
    ensures ScaleOf([5.0, 5.0, 5.0]) == Scale(0.0, 5.0, -0.4, 5.4)
  {
  }
}

=== FILE: wrappers.dfy ===
/** Optional values: the model's stand-in for JavaScript's `null`/`undefined`
    and for numbers that are not finite. */
module Wrappers {

  datatype Option<+T> = None | Some(value: T)
}
